=== FILE: README.md ===
# Answer broadcast hub: a verified model

This project models the server side of the ExamsGPT live feed. A producer
posts answers and "processing" notices to a webhook. The server keeps them in
one in-memory hub (`AnswerEventEmitter`) and fans them out to every browser
connected to the push stream. Clients whose stream is unreliable can poll a
snapshot instead.

Every part is an immutable value with pure transition functions:

- `EventEmitter` (event_emitter.dfy) models the hub. Its state is a last-value cache (`latest`), an ordered registry of listener ids, and the `isProcessing` / `lastMessageId` fields the handlers read. `Emit` and `On` return the new hub together with the trace of listener calls they made, in order; `Off` returns the new hub. A listener that throws is marked by a set of failing ids.
- `Webhook` (webhook.dfy) models the ingestion handler. `Classify` is the pure decision from a request body and the current time to either "emit this event and reply success" or "reply failure, emit nothing". `Handle` passes that decision through `Emit` and turns any exception into the internal-error reply.
- `Stream` (stream.dfy) models one push connection. It covers the frames pushed on connect, the listener that relays later events, one heartbeat tick, and the close callback.
- `Latest` (latest.dfy) models the poll snapshot, a pure read of the hub.
- `Service` (service.dfy) models the whole process: the single hub plus every stream connection. Each handler invocation is one step. The invariant `Valid` holds across all steps: each open connection's listener is registered exactly once, nothing else is registered, and a closed connection has no heartbeat.
- `JsValues` (js_values.dfy) holds the loosely typed body values and JavaScript truthiness. `Options` (options.dfy) holds `null`/`undefined` as `None`.

Some properties come from the code as written and are easy to overlook:

- `emit` caches every event it is given, processing events included.
- `on` replays the cached event, so a client that connects while an answer is cached receives it twice.
- `off` removes only the oldest registration.

The handlers call `getIsProcessing`, `getLastMessageId` and `getListenerCount`, but `server/utils/eventEmitter.ts` does not define them, so as written each call throws a TypeError. The model reads `isProcessing` and `lastMessageId` as hub fields that no operation writes. The emitter has no such fields, so the code fixes no value for them; the model chooses `false` and `null` as starting values, and no operation changes them. It takes the listener count as the number of registrations.

Two more consequences of eventEmitter.ts as written: a processing event sets no processing flag, and no event is ever given a `messageId`.

## Model

| member | source | states |
|---|---|---|
| JsValues.FalsyValues | server/api/webhook.post.ts:31 | the falsy values rejected by `!body.answer` (and defaulted by `or`) are exactly undefined, null, false, 0 and the empty string; `Truthy` decides this |
| JsValues.OrElse | server/api/webhook.post.ts:15 | the or-default `body.type or 'answer'` (and likewise for timestamps) yields the value exactly when it is truthy (not undefined, null, false, 0 or ""), otherwise the fallback |
| EventEmitter.Initial | server/utils/eventEmitter.ts:13-14 | a fresh emitter has no cached event and no listener |
| EventEmitter.Notify | server/utils/eventEmitter.ts:22-28 | the fan-out calls every registration exactly once, in registration order, with the emitted event; a throwing listener is recorded and the loop continues to the next one |
| EventEmitter.Emit | server/utils/eventEmitter.ts:17-29 | whatever was cached before, the cache holds the new event afterwards, even when emit throws; the registry is unchanged; emit returns iff the event has a string answer (the log line at line 19 throws otherwise, after the cache write and before any listener); when it returns, the listeners called are exactly the registry in order, each with this event |
| EventEmitter.EmitIntended | server/utils/eventEmitter.ts:17-29 | corrected emit: it always returns, the cache holds the event, and every registration is called in order with it |
| EventEmitter.On | server/utils/eventEmitter.ts:32-44 | the listener is appended at the end and the rest of the registry is unchanged; it is called once with the cached event iff one is cached, and a failure there does not escape |
| EventEmitter.HasTextAnswer | server/utils/eventEmitter.ts:19 | the log preview `data.answer.substring` is defined exactly when the event is an answer whose answer is a string; a processing event never has one |
| EventEmitter.GetLatest | server/utils/eventEmitter.ts:56-58 | getLatest returns the cached event as it is, and null on a fresh emitter |
| EventEmitter.IndexOf | server/utils/eventEmitter.ts:48 | `indexOf` returns -1 iff the listener is absent, otherwise the position of its first registration |
| EventEmitter.Off | server/utils/eventEmitter.ts:47-53 | off removes the first registration of the listener and keeps the order of the rest; it changes nothing when the listener is absent; it never touches the cache |
| EventEmitter.EmitThenGetLatest | server/utils/eventEmitter.ts:56-58 | after emit(d), getLatest() returns d, whether or not emit threw |
| EventEmitter.ListenerFailuresIsolated | server/utils/eventEmitter.ts:22-28 | which listeners throw changes neither the resulting hub, nor who is called and in what order, nor whether emit itself returns |
| EventEmitter.NotifyOncePerRegistration | server/utils/eventEmitter.ts:22-28 | a listener is called as many times as it is registered: twice if registered twice, never if absent |
| EventEmitter.OffUndoesOn | server/utils/eventEmitter.ts:32-53 | registering a new listener and then removing it restores the hub exactly |
| EventEmitter.OffTakesOldestRegistration | server/utils/eventEmitter.ts:47-53 | when a registered listener registers again, off removes the older registration, so the listener moves to the end of the registry |
| EventEmitter.OffRemovesOneRegistration | server/utils/eventEmitter.ts:47-53 | off removes exactly one registration (multiset difference) of a registered listener and is a no-op otherwise |
| EventEmitter.OffThenEmitSkips | server/utils/eventEmitter.ts:17-53 | a listener registered once and then removed is not called by a later emit |
| Webhook.EventType | server/api/webhook.post.ts:15 | the event type is the body's `type` when truthy and 'answer' otherwise |
| Webhook.Stamp | server/api/webhook.post.ts:21-42 | both events' timestamp is the body's `timestamp` when truthy and the current time otherwise (lines 21 and 42) |
| Webhook.Classify | server/api/webhook.post.ts:15-50 | unreadable body is an internal error; a `processing` type publishes one processing event stamped with body.timestamp or now, before any answer check; any other type (missing or falsy included) rejects a falsy answer with 'Missing required field: answer' and otherwise publishes one answer event carrying body.answer, body.model and the stamp |
| Webhook.Handle | server/api/webhook.post.ts:8-60 | a rejected request leaves the hub alone, calls nobody and replies the rejection; a published request goes through emit once, and only its event reaches listeners; the reply is success exactly when emit returned, and an exception from emit becomes 'Internal server error' and is never rethrown |
| Webhook.Conclude | server/api/webhook.post.ts:46-58 | once emit has run, the hub and the calls are emit's; the reply is the success acknowledgement if emit returned and 'Internal server error' if it threw |
| Webhook.NonTextAnswerFails | server/api/webhook.post.ts:31-58 | a truthy non-string answer (a number, say) passes validation, is cached, makes emit throw, calls nobody, and gets 'Internal server error' |
| Webhook.HandleIntended | server/api/webhook.post.ts:18-50 | with the corrected emit, every published request is acknowledged and reaches every registration |
| Webhook.FalsyTypeIsAnswer | server/api/webhook.post.ts:15 | a missing or falsy `type` behaves exactly like `type: 'answer'` |
| Webhook.ProcessingIgnoresAnswer | server/api/webhook.post.ts:18-36 | for a processing request, the `answer` field makes no difference: the processing path returns before answer validation |
| Webhook.ProcessingRequestFails | server/api/webhook.post.ts:18-28 | as written, every processing request caches the processing event, calls no listener and replies 'Internal server error' |
| Webhook.ProcessingRequestIntended | server/api/webhook.post.ts:18-28 | with the corrected emit, a processing request is acknowledged with 'Processing status broadcasted' and reaches every registration in order |
| Webhook.TextAnswerBroadcast | server/api/webhook.post.ts:39-50 | a non-empty string answer is cached with its model and stamp, reaches every registration, and is acknowledged with 'Answer received and broadcasted' |
| Stream.InitialFrames | server/api/stream.get.ts:26-45 | the first frame is the confirmation text; a processing frame carrying the last message id is sent iff the hub reports processing, as the second frame; the cached event is sent iff there is one, as the last frame; the two checks are independent |
| Stream.PreviewThrows | server/api/stream.get.ts:64 | the listener's preview throws only for an answer event whose answer is not a string; a processing event previews as 'processing started' |
| Stream.Relay | server/api/stream.get.ts:62-70 | the connection's listener pushes the event iff its push works and its preview does not throw; otherwise the connection is unchanged and nothing escapes |
| Stream.ConnectPreviewThrows | server/api/stream.get.ts:41-43 | the connect handler's preview `latest.answer.substring` never throws when nothing is cached, always throws when a processing event is cached, and throws only for a cached event without a string answer |
| Stream.Open | server/api/stream.get.ts:26-72 | the connect handler throws iff the cached event has no string answer, having pushed everything up to the cached event; otherwise the listener is registered last, the heartbeat runs, and the client has received the initial frames followed by the cached event again from on's replay |
| Stream.Register | server/api/stream.get.ts:48-72 | heartbeat started, listener appended through on, and the replay pushes the cached event unless the listener's preview of it throws |
| Stream.OpenIntended | server/api/stream.get.ts:41-72 | corrected connect handler: it always opens and registers the listener |
| Stream.Tick | server/api/stream.get.ts:49-58 | a cleared heartbeat does nothing; a failed push clears the heartbeat and nothing else; otherwise a heartbeat frame carrying the last message id is pushed |
| Stream.Close | server/api/stream.get.ts:75-79 | on close the heartbeat is cleared and exactly this connection's listener is removed with off |
| Stream.CachedAnswerSentTwice | server/api/stream.get.ts:41-72 | a client that connects while a text answer is cached receives it twice in a row, and exactly twice |
| Stream.OpenFailsOnCachedProcessing | server/api/stream.get.ts:41-44 | with a processing event cached, the connect handler throws after the confirmation, without sending any event |
| Stream.OpenIntendedAgrees | server/api/stream.get.ts:41-72 | wherever the handler as written does not throw, the corrected handler behaves identically |
| Latest.Poll | server/api/latest.get.ts:11-26 | the snapshot always has success true; its answer is getLatest(); the processing flag and last message id are copied; the listener count is the number of registrations |
| Latest.PollInitial | server/api/latest.get.ts:12-24 | before anything is emitted, the snapshot answer is null and the listener count 0 |
| Latest.PollAfterEmit | server/api/latest.get.ts:12-24 | after emit(e) the snapshot differs only in its answer, which is e |
| Latest.PollAfterOnOff | server/api/latest.get.ts:15 | subscribing adds one to the listener count; removing a registered listener subtracts one; removing an absent one changes nothing |
| Service.Deliver | server/api/stream.get.ts:62-72 | running the hub's calls on the connections changes only the connections that were called, and only their frames |
| Service.Connect | server/api/stream.get.ts:26-79 | a connection opens iff the cached event is absent or has a string answer; it is then registered last and open; otherwise the process state is unchanged |
| Service.Ingest | server/api/webhook.post.ts:8-60 | a webhook request changes the hub exactly as the handler does, replies as it does, and adds or removes no connection |
| Service.Beat | server/api/stream.get.ts:48-59 | a heartbeat tick never touches the hub or the set of connections |
| Service.Disconnect | server/api/stream.get.ts:75-79 | a close never changes the cached event or the set of connections |
| Service.Start | server/utils/eventEmitter.ts:62 | the one process-wide hub starts empty, with no connection, and satisfies the invariant |
| Service.Poll | server/api/latest.get.ts:11-26 | a poll reports the process hub's cached event and its number of registrations |
| Service.ConnectKeepsValid | server/api/stream.get.ts:26-79 | connecting keeps the invariant, registers the new connection last iff it opens, and changes no other connection |
| Service.DeliverOnce | server/utils/eventEmitter.ts:22-28 | with each listener registered once, each connection runs its listener on the event exactly once and the others are untouched |
| Service.IngestDelivers | server/api/stream.get.ts:62-72 | a webhook request keeps the invariant; on success, every open connection whose push works receives the event exactly once, and a connection whose push fails does not stop the others; on failure no connection changes |
| Service.HeartbeatFailureKeepsSubscription | server/api/stream.get.ts:49-58 | a failed heartbeat push clears only that connection's heartbeat; the connection stays open and its listener registered |
| Service.DisconnectIsolated | server/api/stream.get.ts:75-79 | closing a connection keeps the invariant, unregisters exactly its listener, clears its heartbeat, and leaves every other connection, every other registration and the cache as they were |
| Service.DisconnectIdempotent | server/api/stream.get.ts:75-79 | running the close path twice is the same as running it once |
| Service.ClosedConnectionGetsNothing | server/api/stream.get.ts:75-79 | after a connection closes, later webhook requests push nothing to it |
| Service.ProcessingAfterAnswer | server/api/webhook.post.ts:18-28 | on a fresh process, answer 'B=2' is acknowledged and cached; a following processing request replies 'Internal server error' yet replaces the cached answer; a client connecting afterwards gets no stream |

## Left out

- HTTP plumbing is not modelled: `defineEventHandler`, `setResponseHeaders`, `createEventStream` and `stream.send`. `readBody` appears only as its outcome: the body, a null body, or a failure.
- `JSON.stringify` is not modelled: a frame carries the event value itself.
- Bodies are reduced to the four fields the handler reads. Arrays and objects keep no contents, and numbers are reals. NaN cannot arrive in JSON.
- Timers are not modelled: the 15-second interval, `setInterval` and `clearInterval`. A heartbeat tick is an explicit step, and a running timer is a flag on the connection.
- The clock is not modelled: `new Date().toISOString()` becomes a `now` parameter.
- Logging is not modelled, except the three previews whose exceptions change behaviour: eventEmitter.ts line 19, stream.get.ts line 43, and the listener's preview at stream.get.ts line 64 (`Stream.PreviewThrows`, used by `Relay` and `Replayed`). The last can throw only under the corrected `EmitIntended`, since the emit as written throws first for every event it would reject.
- The module-level singleton (eventEmitter.ts line 62) becomes one explicit hub value owned by `Service`.
- Stream.Open and Latest.Poll assume that the accessors `getIsProcessing`, `getLastMessageId` and `getListenerCount` exist. As written, `getIsProcessing()` at stream.get.ts line 31 throws on every connection right after the confirmation push at line 28, and `getIsProcessing()` at latest.get.ts line 13 throws on every poll; the model does not reproduce these TypeErrors, since they would make both endpoints trivially fail.
- No update rule is modelled for `isProcessing` or `lastMessageId`, and no `messageId` is generated: the code in this repository contains neither. The model chooses `false` and `null` as starting values, so from `Service.Start` no processing notice is ever sent and no heartbeat carries a message id; the `Service` lemmas quantify over every `Valid` state and do not depend on these values.
- Stream.Open: pushes of the initial frames to a freshly created stream are taken to succeed. Only pushes of later events by the listener and the heartbeat's pushes, which sit inside `try`/`catch`, are modelled as failing.
- Stream.Register: the listener's push of `on`'s replay (stream.get.ts line 72 calling lines 62-70) is taken to succeed, since it targets the stream just created; a failure there would be swallowed by the listener and leave out only the second copy of the cached event.
- Service.Ingest: every registered listener in the process is a stream listener that catches its own errors, so the hub sees no failing listener. Throwing listeners are covered by the `EventEmitter` lemmas.
- EventEmitter.Notify: listeners are taken not to call `on` or `off` while `emit` runs. At eventEmitter.ts line 22, `forEach` reads the live array, so a re-entrant `off` would shift it and skip the next registration, and a re-entrant `on` would not be visited. The only listener in this repository (stream.get.ts lines 62-70) never calls either, so "every registration exactly once, in order" holds for this program.
- Concurrency is not modelled: each handler invocation runs as one atomic step, as on the single-threaded runtime.
- nuxt.config.ts holds static framework configuration with no logic.

## Findings

| source | as written | input that shows it | evidently intended | confidence | as-written member | corrected member |
|---|---|---|---|---|---|---|
| server/utils/eventEmitter.ts:18-19 | `emit` stores the event, then its log line evaluates `data.answer.substring`, which throws for an event without a string answer, before any listener runs | a webhook body `{"type": "processing"}`: the reply is 'Internal server error', no client is notified, and the processing event replaces the cached answer | a processing event is broadcast to every listener and acknowledged with 'Processing status broadcasted' | not executed; high for the code in this repository, but this emitter lacks accessors the handlers call, so it may not be the version deployed with them | Webhook.ProcessingRequestFails | Webhook.ProcessingRequestIntended |
| server/api/stream.get.ts:41-44 | the connect handler logs `latest.answer.substring` outside any `try`, so it throws whenever the cached event has no string answer | a webhook body `{"type": "processing"}`, then a connection to the stream: the handler throws after the confirmation, and no listener or heartbeat is set up | the preview is guarded as in the listener at line 64, and the connection opens | not executed; holds once the accessors stream.get.ts calls exist (the model's assumption); with the files as they are, line 31 throws first on every connection, and an emitter defining the accessors might not cache processing events | Stream.OpenFailsOnCachedProcessing | Stream.OpenIntended |

The `Service` model follows the code as written, using `Emit`, `Handle` and `Open`. The corrected members `EmitIntended`, `HandleIntended` and `OpenIntended` sit beside them. Each corrected member carries its intended property: `Webhook.ProcessingRequestIntended`, and the contract of `Stream.OpenIntended` together with `Stream.OpenIntendedAgrees`.

=== FILE: event_emitter.dfy ===
/**
 * The in-memory broadcast hub (`AnswerEventEmitter`): a last-value cache and
 * an ordered registry of listeners.
 *
 * Listeners are opaque ids, so that JavaScript reference equality, a listener
 * registered twice, and `indexOf`/`splice` removal mean exactly what they mean
 * in the program. A listener that throws is modelled by a set of failing ids;
 * every call the hub makes is recorded, in order, in a trace of `Call`s.
 */
module EventEmitter {
  import opened Options
  import opened JsValues

  type ListenerId = nat

  /** The two shapes of event the ingestion handler builds. */
  datatype Event =
    | Processing(timestamp: Value)
    | Answer(answer: Value, timestamp: Value, model: Option<Value>)

  /**
   * Whether `event.answer.substring(...)` is defined: only when the event
   * carries an `answer` and that answer is a string. Both the emit log line
   * and the stream's connect-time log line evaluate it.
   */
  predicate HasTextAnswer(e: Event)
    ensures e.Processing? ==> !HasTextAnswer(e)
    ensures HasTextAnswer(e) <==> exists text :: e.Answer? && e.answer == Str(text)
  {
    e.Answer? && e.answer.Str?
  }

  /**
   * The hub's state. `isProcessing` and `lastMessageId` are read by the
   * stream and snapshot handlers, but no operation of the emitter writes
   * them, so they are carried along unchanged.
   */
  datatype Hub = Hub(
    latest: Option<Event>,
    listeners: seq<ListenerId>,
    isProcessing: bool,
    lastMessageId: Option<string>)

  /**
   * The state of the process-wide instance when the module is first loaded.
   * The emitter defines no processing flag or message id; `false` and `None`
   * are the model's chosen starting values.
   */
  function Initial(): (h: Hub)
    ensures h.latest == None && h.listeners == []
  {
    Hub(None, [], false, None)
  }

  /** One invocation of a listener: who was called, with what, and whether it threw. */
  datatype Call = Call(listener: ListenerId, event: Event, threw: bool)

  /** Whether an operation returned normally or raised to its caller. */
  datatype Completion = Returned | Threw

  datatype Emitted = Emitted(hub: Hub, calls: seq<Call>, completion: Completion)

  datatype Subscribed = Subscribed(hub: Hub, calls: seq<Call>)

  /** The listeners invoked by a trace, in invocation order. */
  function Ids(calls: seq<Call>): (ids: seq<ListenerId>)
    ensures |ids| == |calls|
    ensures forall i :: 0 <= i < |calls| ==> ids[i] == calls[i].listener
  {
    seq(|calls|, i requires 0 <= i < |calls| => calls[i].listener)
  }

  /**
   * The `forEach` fan-out with a `try`/`catch` around each call: every
   * registration is invoked once, in registration order, and a listener that
   * throws is recorded as such without stopping the loop.
   */
  function Notify(listeners: seq<ListenerId>, e: Event, failing: set<ListenerId>): (calls: seq<Call>)
    ensures |calls| == |listeners|
    ensures forall i :: 0 <= i < |listeners| ==>
      calls[i].listener == listeners[i] && calls[i].event == e && calls[i].threw == (listeners[i] in failing)
  {
    if listeners == [] then []
    else [Call(listeners[0], e, listeners[0] in failing)] + Notify(listeners[1..], e, failing)
  }

  /**
   * `emit(data)` as written: the cache is overwritten first; the log line then
   * evaluates `data.answer.substring`, which throws for an event without a
   * string answer, in which case no listener is called and the error reaches
   * the caller. Otherwise every registration is notified and `emit` returns,
   * whatever the listeners do.
   */
  function Emit(h: Hub, e: Event, failing: set<ListenerId>): (r: Emitted)
    ensures r.hub.latest == Some(e)
    ensures r.hub.listeners == h.listeners
    ensures r.hub.isProcessing == h.isProcessing && r.hub.lastMessageId == h.lastMessageId
    ensures r.completion == Returned <==> HasTextAnswer(e)
    ensures r.completion == Threw ==> r.calls == []
    ensures r.completion == Returned ==> Ids(r.calls) == h.listeners
    ensures forall c :: c in r.calls ==> c.event == e
  {
    var stored := h.(latest := Some(e));
    if !HasTextAnswer(e) then Emitted(stored, [], Threw)
    else Emitted(stored, Notify(h.listeners, e, failing), Returned)
  }

  /**
   * `emit` as its log line evidently intends it: a preview that cannot throw,
   * so the cache write is always followed by the notification of every
   * registration, for processing and answer events alike.
   */
  function EmitIntended(h: Hub, e: Event, failing: set<ListenerId>): (r: Emitted)
    ensures r.hub.latest == Some(e)
    ensures r.hub.listeners == h.listeners
    ensures r.hub.isProcessing == h.isProcessing && r.hub.lastMessageId == h.lastMessageId
    ensures r.completion == Returned
    ensures Ids(r.calls) == h.listeners
    ensures forall c :: c in r.calls ==> c.event == e
  {
    Emitted(h.(latest := Some(e)), Notify(h.listeners, e, failing), Returned)
  }

  /**
   * `on(listener)`: the registration is appended at the end, then the cached
   * event, if any, is replayed to the new listener alone; a failure of that
   * replay is swallowed, so `on` always returns.
   */
  function On(h: Hub, l: ListenerId, failing: set<ListenerId>): (r: Subscribed)
    ensures |r.hub.listeners| == |h.listeners| + 1
    ensures r.hub.listeners[..|h.listeners|] == h.listeners
    ensures r.hub.listeners[|h.listeners|] == l
    ensures r.hub.latest == h.latest
    ensures r.hub.isProcessing == h.isProcessing && r.hub.lastMessageId == h.lastMessageId
    ensures |r.calls| == (if h.latest.Some? then 1 else 0)
    ensures forall c :: c in r.calls ==> c.listener == l && Some(c.event) == h.latest
  {
    var registered := h.(listeners := h.listeners + [l]);
    match h.latest
    case None => Subscribed(registered, [])
    case Some(e) => Subscribed(registered, [Call(l, e, l in failing)])
  }

  /** `Array.prototype.indexOf`: the position of the first occurrence of `x`, or -1. */
  function IndexOf(s: seq<ListenerId>, x: ListenerId): (i: int)
    ensures i == -1 <==> x !in s
    ensures i != -1 ==> 0 <= i < |s| && s[i] == x && x !in s[..i]
  {
    if s == [] then -1
    else if s[0] == x then 0
    else
      var j := IndexOf(s[1..], x);
      if j == -1 then -1 else j + 1
  }

  /**
   * `off(listener)`: removes the first registration of `listener` (found with
   * `indexOf`, removed with `splice`); a listener that is not registered
   * leaves the hub as it is. The cache is never touched.
   */
  function Off(h: Hub, l: ListenerId): (r: Hub)
    ensures r.latest == h.latest
    ensures r.isProcessing == h.isProcessing && r.lastMessageId == h.lastMessageId
    ensures l !in h.listeners ==> r == h
    ensures l in h.listeners ==> |r.listeners| == |h.listeners| - 1
    ensures l in h.listeners ==>
      exists k :: 0 <= k < |h.listeners| && h.listeners[k] == l && l !in h.listeners[..k]
        && r.listeners == h.listeners[..k] + h.listeners[k + 1..]
  {
    var index := IndexOf(h.listeners, l);
    if index > -1 then h.(listeners := h.listeners[..index] + h.listeners[index + 1..])
    else h
  }

  /** `getLatest()`: the cached event, `null` on a fresh emitter. */
  function GetLatest(h: Hub): (latest: Option<Event>)
    ensures latest == h.latest
    ensures h == Initial() ==> latest == None
  {
    h.latest
  }

  // Properties relating several operations.

  /** After `emit(d)`, `getLatest()` returns `d` whatever was cached before, even when `emit` threw. */
  lemma EmitThenGetLatest(h: Hub, e: Event, failing: set<ListenerId>)
    ensures GetLatest(Emit(h, e, failing).hub) == Some(e)
    ensures GetLatest(EmitIntended(h, e, failing).hub) == Some(e)
  {
  }

  /**
   * Listener failures are isolated: which listeners throw changes neither the
   * resulting hub, nor who is called and in what order, nor whether `emit`
   * itself returns.
   */
  lemma ListenerFailuresIsolated(h: Hub, e: Event, f1: set<ListenerId>, f2: set<ListenerId>)
    ensures Emit(h, e, f1).hub == Emit(h, e, f2).hub
    ensures Emit(h, e, f1).completion == Emit(h, e, f2).completion
    ensures Ids(Emit(h, e, f1).calls) == Ids(Emit(h, e, f2).calls)
  {
  }

  /** The number of registrations of `l`. */
  function Occurrences(s: seq<ListenerId>, l: ListenerId): (n: nat)
    ensures n == 0 <==> l !in s
  {
    multiset(s)[l]
  }

  /**
   * A listener is called once per registration: one registered twice is
   * called twice, one not registered is not called.
   */
  lemma {:induction false} NotifyOncePerRegistration(listeners: seq<ListenerId>, e: Event, failing: set<ListenerId>, l: ListenerId)
    ensures Occurrences(Ids(Notify(listeners, e, failing)), l) == Occurrences(listeners, l)
  {
    assert Ids(Notify(listeners, e, failing)) == listeners;
  }

  /** Appending to the registry does not move the first registration of a listener already in it. */
  lemma {:induction false} IndexOfAppend(s: seq<ListenerId>, x: ListenerId, y: ListenerId)
    requires x in s
    ensures IndexOf(s + [y], x) == IndexOf(s, x)
    decreases |s|
  {
    if s[0] != x {
      assert (s + [y])[1..] == s[1..] + [y];
      IndexOfAppend(s[1..], x, y);
    }
  }

  /** A listener appended to a registry it was absent from is found at the end. */
  lemma {:induction false} IndexOfAppendAbsent(s: seq<ListenerId>, x: ListenerId)
    requires x !in s
    ensures IndexOf(s + [x], x) == |s|
    decreases |s|
  {
    if s != [] {
      assert (s + [x])[1..] == s[1..] + [x];
      IndexOfAppendAbsent(s[1..], x);
    }
  }

  /** Registering a listener that was not registered and then removing it restores the hub exactly. */
  lemma OffUndoesOn(h: Hub, l: ListenerId, failing: set<ListenerId>)
    requires l !in h.listeners
    ensures Off(On(h, l, failing).hub, l) == h
  {
    var ls := On(h, l, failing).hub.listeners;
    assert ls == h.listeners + [l];
    IndexOfAppendAbsent(h.listeners, l);
    assert ls[..|h.listeners|] == h.listeners;
  }

  /**
   * Removal takes the first registration: registering an already registered
   * listener again and then removing it drops the OLDER registration, so the
   * listener ends up moved to the end of the registry.
   */
  lemma OffTakesOldestRegistration(h: Hub, l: ListenerId, failing: set<ListenerId>)
    requires l in h.listeners
    ensures Off(On(h, l, failing).hub, l).listeners == Off(h, l).listeners + [l]
  {
    var ls := h.listeners;
    var h2 := On(h, l, failing).hub;
    OnAppends(h, l, failing);
    IndexOfAppend(ls, l, l);
    OffSplices(h, l);
    OffSplices(h2, l);
    SpliceBeforeLast(ls, IndexOf(ls, l), l);
  }

  /** `on` leaves the registry as the old one with the new listener appended. */
  lemma OnAppends(h: Hub, l: ListenerId, failing: set<ListenerId>)
    ensures On(h, l, failing).hub.listeners == h.listeners + [l]
  {
  }

  /** Cutting a position out of a sequence commutes with appending an element after it. */
  lemma SpliceBeforeLast(s: seq<ListenerId>, k: nat, y: ListenerId)
    requires k < |s|
    ensures (s + [y])[..k] + (s + [y])[k + 1..] == s[..k] + s[k + 1..] + [y]
  {
    assert (s + [y])[..k] == s[..k];
    assert (s + [y])[k + 1..] == s[k + 1..] + [y];
  }

  /** `off` of a registered listener is the `splice` at its `indexOf` position. */
  lemma OffSplices(h: Hub, l: ListenerId)
    requires l in h.listeners
    ensures Off(h, l).listeners
      == h.listeners[..IndexOf(h.listeners, l)] + h.listeners[IndexOf(h.listeners, l) + 1..]
  {
  }

  /** `off` removes exactly one registration of a registered listener and no other. */
  lemma OffRemovesOneRegistration(h: Hub, l: ListenerId)
    ensures l in h.listeners ==> multiset(Off(h, l).listeners) == multiset(h.listeners) - multiset{l}
    ensures l !in h.listeners ==> Off(h, l) == h
  {
    if l in h.listeners {
      var ls := h.listeners;
      var k := IndexOf(ls, l);
      assert ls == ls[..k] + [l] + ls[k + 1..];
      assert multiset(ls) == multiset(ls[..k]) + multiset{l} + multiset(ls[k + 1..]);
    }
  }

  /** After `off` of a listener registered once, a later `emit` does not call it. */
  lemma OffThenEmitSkips(h: Hub, l: ListenerId, e: Event, failing: set<ListenerId>)
    requires Occurrences(h.listeners, l) == 1
    ensures l !in Ids(Emit(Off(h, l), e, failing).calls)
  {
    OffRemovesOneRegistration(h, l);
    assert l !in multiset(Off(h, l).listeners);
  }
}

=== FILE: js_values.dfy ===
/**
 * The loosely typed values that arrive in a request body, and the JavaScript
 * truthiness rule the handlers apply to them (`x || fallback`, `!x`, `if (x)`).
 *
 * A field that is absent from the body reads as `undefined`; it is modelled
 * as `None` of an `Option<Value>`.
 */
module JsValues {
  import opened Options

  /** A JSON value. Arrays and objects keep no contents: the handlers only test their truthiness. */
  datatype Value =
    | Null
    | Bool(b: bool)
    | Num(x: real)
    | Str(s: string)
    | Arr
    | Obj

  /** JavaScript truthiness of a possibly-undefined value: `undefined`, `null`, `false`, `0` and `""` are falsy. */
  predicate Truthy(v: Option<Value>)
  {
    match v
    case None => false
    case Some(Null) => false
    case Some(Bool(b)) => b
    case Some(Num(x)) => x != 0.0
    case Some(Str(s)) => |s| > 0
    case Some(Arr) => true
    case Some(Obj) => true
  }

  /** `v || fallback`: the value itself when truthy, the fallback otherwise. */
  function OrElse(v: Option<Value>, fallback: Value): (r: Value)
    ensures Truthy(v) ==> Some(r) == v
    ensures !Truthy(v) ==> r == fallback
  {
    if Truthy(v) then v.value else fallback
  }

  /** Every value that carries content is truthy; exactly the empty or zero primitives and `null` are not. */
  lemma FalsyValues(v: Option<Value>)
    ensures !Truthy(v) <==>
      v == None || v == Some(Null) || v == Some(Bool(false)) || v == Some(Num(0.0)) || v == Some(Str(""))
  {
  }
}

=== FILE: latest.dfy ===
/**
 * The poll snapshot (`GET /api/latest`), the fallback for clients whose
 * stream is unreliable: a pure read of the hub.
 */
module Latest {
  import opened Options
  import opened EventEmitter

  /** The reply body; `answer` is `null` (`None`) until something has been emitted. */
  datatype Snapshot = Snapshot(
    success: bool,
    isProcessing: bool,
    lastMessageId: Option<string>,
    listenerCount: nat,
    answer: Option<Event>)

  /**
   * The snapshot of a hub: always successful, the cached event as `answer`,
   * the processing flag and last message id as the hub reports them, and the
   * number of registrations as the listener count. Being a function of the
   * hub alone, it cannot change it.
   */
  function Poll(h: Hub): (s: Snapshot)
    ensures s.success
    ensures s.answer == GetLatest(h)
    ensures s.isProcessing == h.isProcessing && s.lastMessageId == h.lastMessageId
    ensures s.listenerCount == |h.listeners|
  {
    Snapshot(true, h.isProcessing, h.lastMessageId, |h.listeners|, GetLatest(h))
  }

  /** Before anything is emitted the snapshot is empty. */
  lemma PollInitial()
    ensures Poll(Initial()).answer == None && Poll(Initial()).listenerCount == 0
  {
  }

  /** After `emit(e)`, the snapshot differs only in its `answer`, which is `e`, whether or not `emit` threw. */
  lemma PollAfterEmit(h: Hub, e: Event, failing: set<ListenerId>)
    ensures Poll(Emit(h, e, failing).hub) == Poll(h).(answer := Some(e))
  {
  }

  /** Subscribing and unsubscribing move only the listener count. */
  lemma PollAfterOnOff(h: Hub, l: ListenerId, failing: set<ListenerId>)
    ensures Poll(On(h, l, failing).hub) == Poll(h).(listenerCount := |h.listeners| + 1)
    ensures l in h.listeners ==> Poll(Off(h, l)) == Poll(h).(listenerCount := |h.listeners| - 1)
    ensures l !in h.listeners ==> Poll(Off(h, l)) == Poll(h)
  {
  }
}

=== FILE: options.dfy ===
/** The optional value used wherever the program has `null` or `undefined`. */
module Options {

  datatype Option<+T> = None | Some(value: T)
}

=== FILE: service.dfy ===
/**
 * The whole process: the one hub instance shared by every handler, and the
 * stream connections opened against it. Each handler invocation is one
 * transition. A connection's id is the id of the listener it registers
 * (every connection registers a closure of its own), and `down` is the set
 * of connections whose pushes currently fail.
 */
module Service {
  import opened Options
  import opened JsValues
  import opened EventEmitter
  import Webhook
  import Stream
  import Latest

  datatype Server = Server(hub: Hub, conns: map<ListenerId, Stream.Conn>, nextId: nat)

  datatype Ingested = Ingested(server: Server, reply: Webhook.Reply)

  /** The process as started: the fresh hub and no connection. */
  function Start(): (r: Server)
    ensures Valid(r)
    ensures r.conns == map[] && r.hub.latest == None && r.hub.listeners == []
  {
    Server(Initial(), map[], 0)
  }

  predicate Distinct(s: seq<ListenerId>)
  {
    forall i, j :: 0 <= i < j < |s| ==> s[i] != s[j]
  }

  /**
   * The invariant the handlers keep together: the registry holds each open
   * connection's listener exactly once and nothing else, ids are allocated
   * below `nextId`, and a closed connection has no running heartbeat.
   */
  predicate Valid(s: Server)
  {
    && Distinct(s.hub.listeners)
    && (forall i :: 0 <= i < |s.hub.listeners| ==>
          s.hub.listeners[i] in s.conns && s.conns[s.hub.listeners[i]].open)
    && (forall id :: id in s.conns && s.conns[id].open ==> id in s.hub.listeners)
    && (forall id :: id in s.conns ==> id < s.nextId)
    && (forall id :: id in s.conns && !s.conns[id].open ==> !s.conns[id].heartbeat)
  }

  /** Each listener call of a trace, run by the connection that registered that listener. */
  function Deliver(conns: map<ListenerId, Stream.Conn>, calls: seq<Call>, down: set<ListenerId>)
    : (r: map<ListenerId, Stream.Conn>)
    ensures r.Keys == conns.Keys
    ensures forall id :: id in conns ==> r[id].open == conns[id].open && r[id].heartbeat == conns[id].heartbeat
    ensures forall id :: id in conns && id !in Ids(calls) ==> r[id] == conns[id]
  {
    if calls == [] then conns
    else
      var l := calls[0].listener;
      var next := if l in conns then conns[l := Stream.Relay(conns[l], calls[0].event, l in down)] else conns;
      assert Ids(calls) == [l] + Ids(calls[1..]);
      Deliver(next, calls[1..], down)
  }

  /** A client connects: it gets the id `nextId` if the handler opens, and nothing changes if it throws. */
  function Connect(s: Server, now: string): (r: Server)
    ensures r.nextId == s.nextId + 1 <==> !Stream.ConnectPreviewThrows(s.hub)
    ensures r.nextId != s.nextId + 1 ==> r == s
    ensures r.nextId == s.nextId + 1 ==>
      && s.nextId in r.conns && r.conns[s.nextId].open
      && r.hub.listeners == s.hub.listeners + [s.nextId]
      && r.hub.latest == s.hub.latest
  {
    match Stream.Open(s.hub, s.nextId, now)
    case Crashed(_) => s
    case Opened(hub, conn) => Server(hub, s.conns[s.nextId := conn], s.nextId + 1)
  }

  /**
   * A producer posts to the webhook. The stream listeners catch their own
   * errors, so none of them counts as failing for the hub; the calls the hub
   * makes are then run by the connections.
   */
  function Ingest(s: Server, req: Webhook.Request, now: string, down: set<ListenerId>): (r: Ingested)
    ensures r.reply == Webhook.Handle(s.hub, req, now, {}).reply
    ensures r.server.hub == Webhook.Handle(s.hub, req, now, {}).hub
    ensures r.server.conns.Keys == s.conns.Keys && r.server.nextId == s.nextId
  {
    var handled := Webhook.Handle(s.hub, req, now, {});
    Ingested(s.(hub := handled.hub, conns := Deliver(s.conns, handled.calls, down)), handled.reply)
  }

  /** A heartbeat tick of connection `id`. */
  function Beat(s: Server, id: ListenerId, now: string, down: set<ListenerId>): (r: Server)
    ensures r.hub == s.hub && r.nextId == s.nextId && r.conns.Keys == s.conns.Keys
  {
    if id in s.conns then s.(conns := s.conns[id := Stream.Tick(s.conns[id], s.hub, now, id in down)])
    else s
  }

  /** The transport reports that connection `id` closed. */
  function Disconnect(s: Server, id: ListenerId): (r: Server)
    ensures r.nextId == s.nextId && r.conns.Keys == s.conns.Keys
    ensures r.hub.latest == s.hub.latest
  {
    if id in s.conns then
      var closed := Stream.Close(s.hub, s.conns[id], id);
      Server(closed.hub, s.conns[id := closed.conn], s.nextId)
    else s
  }

  /** A client polls. */
  function Poll(s: Server): (snapshot: Latest.Snapshot)
    ensures snapshot.answer == s.hub.latest && snapshot.listenerCount == |s.hub.listeners|
  {
    Latest.Poll(s.hub)
  }

  // The invariant and the end-to-end properties.

  /**
   * A connection opens unless the cached event has no text answer; an opened
   * connection is registered last, and no other connection changes.
   */
  lemma ConnectKeepsValid(s: Server, now: string)
    requires Valid(s)
    ensures Valid(Connect(s, now))
    ensures s.nextId in Connect(s, now).conns <==> !Stream.ConnectPreviewThrows(s.hub)
    ensures s.nextId in Connect(s, now).conns ==> Connect(s, now).hub.listeners == s.hub.listeners + [s.nextId]
    ensures forall id :: id in s.conns ==> id in Connect(s, now).conns && Connect(s, now).conns[id] == s.conns[id]
  {
    var r := Connect(s, now);
    if !Stream.ConnectPreviewThrows(s.hub) {
      var ls := s.hub.listeners;
      assert r.hub.listeners == ls + [s.nextId];
      assert s.nextId !in ls;
      forall i | 0 <= i < |r.hub.listeners|
        ensures r.hub.listeners[i] in r.conns && r.conns[r.hub.listeners[i]].open
      {
        if i < |ls| { assert r.hub.listeners[i] == ls[i]; }
      }
    }
  }

  /** With distinct listeners all called with `e`, each connection runs its listener on `e` exactly once. */
  lemma {:induction false} DeliverOnce(conns: map<ListenerId, Stream.Conn>, calls: seq<Call>, down: set<ListenerId>, e: Event)
    requires Distinct(Ids(calls))
    requires forall c :: c in calls ==> c.event == e
    ensures forall id :: id in conns ==>
      Deliver(conns, calls, down)[id] == if id in Ids(calls) then Stream.Relay(conns[id], e, id in down) else conns[id]
    decreases |calls|
  {
    if calls != [] {
      var l := calls[0].listener;
      var rest := calls[1..];
      assert Ids(calls) == [l] + Ids(rest);
      assert calls[0] in calls;
      var next := if l in conns then conns[l := Stream.Relay(conns[l], e, l in down)] else conns;
      assert Distinct(Ids(rest)) by {
        forall i, j | 0 <= i < j < |Ids(rest)| ensures Ids(rest)[i] != Ids(rest)[j] {
          assert Ids(rest)[i] == Ids(calls)[i + 1] && Ids(rest)[j] == Ids(calls)[j + 1];
        }
      }
      assert l !in Ids(rest) by {
        forall i | 0 <= i < |Ids(rest)| ensures Ids(rest)[i] != l {
          assert Ids(rest)[i] == Ids(calls)[i + 1] && l == Ids(calls)[0];
        }
      }
      forall c | c in rest ensures c.event == e {
        assert c in calls;
      }
      DeliverOnce(next, rest, down, e);
    }
  }

  /**
   * One webhook request: the invariant is kept; when the reply is a success,
   * every open connection whose push works receives the event once, and no
   * other connection changes (a failing push does not stop the others); on a
   * failure reply no connection changes.
   */
  lemma IngestDelivers(s: Server, req: Webhook.Request, now: string, down: set<ListenerId>)
    requires Valid(s)
    ensures Valid(Ingest(s, req, now, down).server)
    ensures Ingest(s, req, now, down).reply.Err? ==> Ingest(s, req, now, down).server.conns == s.conns
    ensures Ingest(s, req, now, down).reply.Ok? ==>
      forall id :: id in s.conns ==>
        Ingest(s, req, now, down).server.conns[id].sent ==
          if s.conns[id].open && id !in down
          then s.conns[id].sent + [Stream.EventFrame(Webhook.Classify(req, now).event)]
          else s.conns[id].sent
  {
    var handled := Webhook.Handle(s.hub, req, now, {});
    var r := Ingest(s, req, now, down);
    if handled.reply.Ok? {
      var e := Webhook.Classify(req, now).event;
      assert Ids(handled.calls) == s.hub.listeners;
      DeliverOnce(s.conns, handled.calls, down, e);
      forall id | id in s.conns
        ensures r.server.conns[id].sent ==
          if s.conns[id].open && id !in down then s.conns[id].sent + [Stream.EventFrame(e)] else s.conns[id].sent
      {
        assert id in s.hub.listeners <==> s.conns[id].open;
      }
    }
  }

  /** A heartbeat whose push fails stops the heartbeat only: the connection stays open and registered. */
  lemma HeartbeatFailureKeepsSubscription(s: Server, id: ListenerId, now: string, down: set<ListenerId>)
    requires Valid(s)
    ensures Valid(Beat(s, id, now, down))
    ensures id in s.conns && s.conns[id].heartbeat && id in down ==>
      && !Beat(s, id, now, down).conns[id].heartbeat
      && Beat(s, id, now, down).conns[id].open == s.conns[id].open
      && Beat(s, id, now, down).conns[id].sent == s.conns[id].sent
      && Beat(s, id, now, down).hub == s.hub
  {
  }

  /** Cutting one position out of a sequence without duplicates removes that element entirely and keeps every other one. */
  lemma RemoveAtDistinct(ls: seq<ListenerId>, k: nat)
    requires Distinct(ls) && k < |ls|
    ensures Distinct(ls[..k] + ls[k + 1..])
    ensures ls[k] !in ls[..k] + ls[k + 1..]
    ensures forall x :: x != ls[k] ==> (x in ls[..k] + ls[k + 1..] <==> x in ls)
  {
    var rs := ls[..k] + ls[k + 1..];
    assert forall i :: 0 <= i < |rs| ==> rs[i] == if i < k then ls[i] else ls[i + 1];
    forall x | x != ls[k] && x in ls ensures x in rs {
      var j :| 0 <= j < |ls| && ls[j] == x;
      assert rs[if j < k then j else j - 1] == x;
    }
  }

  /** Removing a listener from a registry without duplicates removes it entirely and keeps every other one. */
  lemma OffDistinct(h: Hub, l: ListenerId)
    requires Distinct(h.listeners)
    ensures Distinct(Off(h, l).listeners)
    ensures l !in Off(h, l).listeners
    ensures forall x :: x != l ==> (x in Off(h, l).listeners <==> x in h.listeners)
  {
    if l in h.listeners {
      OffSplices(h, l);
      RemoveAtDistinct(h.listeners, IndexOf(h.listeners, l));
    }
  }

  /**
   * Closing one connection keeps the invariant, unregisters exactly its
   * listener, stops its heartbeat, and leaves every other connection and the
   * cached event as they were.
   */
  lemma DisconnectIsolated(s: Server, id: ListenerId)
    requires Valid(s)
    ensures Valid(Disconnect(s, id))
    ensures id !in Disconnect(s, id).hub.listeners
    ensures forall x :: x != id ==> (x in Disconnect(s, id).hub.listeners <==> x in s.hub.listeners)
    ensures forall x :: x in s.conns && x != id ==> Disconnect(s, id).conns[x] == s.conns[x]
    ensures id in s.conns ==> !Disconnect(s, id).conns[id].open && !Disconnect(s, id).conns[id].heartbeat
  {
    if id in s.conns {
      OffDistinct(s.hub, id);
      var hub' := Off(s.hub, id);
      var conns' := s.conns[id := s.conns[id].(heartbeat := false, open := false)];
      assert Disconnect(s, id) == Server(s.hub.(listeners := hub'.listeners), conns', s.nextId);
      forall i | 0 <= i < |hub'.listeners|
        ensures hub'.listeners[i] in conns' && conns'[hub'.listeners[i]].open
      {
        assert hub'.listeners[i] in s.hub.listeners && hub'.listeners[i] != id;
      }
      forall x | x in conns' && conns'[x].open ensures x in hub'.listeners {
        assert x != id && x in s.hub.listeners;
      }
    } else {
      assert id !in s.hub.listeners;
    }
  }

  /** The close path may run more than once: the second run changes nothing. */
  lemma DisconnectIdempotent(s: Server, id: ListenerId)
    requires Valid(s)
    ensures Disconnect(Disconnect(s, id), id) == Disconnect(s, id)
  {
    DisconnectIsolated(s, id);
  }

  /** After a connection closes, later broadcasts push nothing more to it. */
  lemma ClosedConnectionGetsNothing(s: Server, id: ListenerId, req: Webhook.Request, now: string, down: set<ListenerId>)
    requires Valid(s) && id in s.conns
    ensures Ingest(Disconnect(s, id), req, now, down).server.conns[id] == Disconnect(s, id).conns[id]
  {
    DisconnectIsolated(s, id);
    IngestDelivers(Disconnect(s, id), req, now, down);
  }

  /**
   * An answer followed by a processing notice, on a fresh process: the
   * answer is acknowledged and cached; the processing request is answered
   * with the internal error, yet its event replaces the cached answer, and a
   * client that connects afterwards gets no stream.
   */
  lemma ProcessingAfterAnswer(now: string)
    ensures
      var first := Ingest(Start(), Webhook.Posted(Webhook.Body(None, Some(Str("B=2")), Some(Str("gpt")), None)), now, {});
      var second := Ingest(first.server, Webhook.Posted(Webhook.Body(Some(Str("processing")), None, None, None)), now, {});
      && first.reply == Webhook.Ok(Webhook.AnswerAck)
      && Poll(first.server).answer == Some(Answer(Str("B=2"), Str(now), Some(Str("gpt"))))
      && second.reply == Webhook.Err(Webhook.InternalError)
      && Poll(second.server).answer == Some(Processing(Str(now)))
      && Connect(second.server, now) == second.server
  {
    assert Webhook.EventType(Webhook.Body(None, Some(Str("B=2")), Some(Str("gpt")), None)) == Str("answer");
    assert Webhook.EventType(Webhook.Body(Some(Str("processing")), None, None, None)) == Str("processing");
  }
}

=== FILE: stream.dfy ===
/**
 * The push-stream handler (`GET /api/stream`) for one connection: the frames
 * pushed on connect, the listener that relays later events, the heartbeat,
 * and the cleanup when the connection closes. Timers are not modelled; a
 * heartbeat tick is an explicit step and the running timer a flag.
 */
module Stream {
  import opened Options
  import opened JsValues
  import opened EventEmitter

  /** The plaintext frame pushed first on every connection. */
  const Confirmation := "Connected to ExamsGPT live feed"

  /** A frame pushed to the client; every frame but the confirmation is a JSON object. */
  datatype Frame =
    | Text(text: string)
    | ProcessingNotice(timestamp: string, messageId: Option<string>)
    | EventFrame(event: Event)
    | Heartbeat(timestamp: string, lastMessageId: Option<string>)

  /** One connection: the frames pushed so far, whether its heartbeat timer runs, whether it is still open. */
  datatype Conn = Conn(sent: seq<Frame>, heartbeat: bool, open: bool)

  /**
   * The result of the connect handler: either it opened the stream and
   * registered its listener, or it threw part-way, after pushing `pushed`,
   * with no timer started and no listener registered.
   */
  datatype Opening = Opened(hub: Hub, conn: Conn) | Crashed(pushed: seq<Frame>)

  datatype Closed = Closed(hub: Hub, conn: Conn)

  /**
   * The frames pushed on connect, before the listener is registered: the
   * confirmation; a processing notice carrying the last message id when the
   * hub reports processing; then the cached event when there is one. The two
   * checks are independent, so both frames can be sent.
   */
  function InitialFrames(h: Hub, now: string): (fs: seq<Frame>)
    ensures |fs| == 1 + (if h.isProcessing then 1 else 0) + (if h.latest.Some? then 1 else 0)
    ensures fs[0] == Text(Confirmation)
    ensures forall i :: 0 <= i < |fs| ==>
      (fs[i].ProcessingNotice? <==> h.isProcessing && i == 1)
    ensures forall i :: 0 <= i < |fs| ==>
      (fs[i].EventFrame? <==> h.latest.Some? && i == |fs| - 1)
    ensures h.isProcessing ==> fs[1] == ProcessingNotice(now, h.lastMessageId)
    ensures h.latest.Some? ==> fs[|fs| - 1] == EventFrame(h.latest.value)
  {
    [Text(Confirmation)]
    + (if h.isProcessing then [ProcessingNotice(now, h.lastMessageId)] else [])
    + (match h.latest case Some(e) => [EventFrame(e)] case None => [])
  }

  /** The listener's preview `data.answer.substring(...)` for an answer event, which throws unless the answer is a string. */
  predicate PreviewThrows(e: Event)
    ensures e.Processing? ==> !PreviewThrows(e)
    ensures PreviewThrows(e) ==> !HasTextAnswer(e)
    ensures e.Answer? && !PreviewThrows(e) ==> HasTextAnswer(e)
  {
    e.Answer? && !e.answer.Str?
  }

  /**
   * The connection's listener run on one event. Everything it does sits in a
   * `try`/`catch`: a throwing preview or a failed push (`sinkDown`) leaves the
   * connection as it was, and nothing ever reaches the emitter, so the
   * listener's id is never among the hub's failing listeners.
   */
  function Relay(c: Conn, e: Event, sinkDown: bool): (r: Conn)
    ensures r.heartbeat == c.heartbeat && r.open == c.open
    ensures r.sent == c.sent || r.sent == c.sent + [EventFrame(e)]
    ensures r.sent == c.sent + [EventFrame(e)] <==> !sinkDown && !PreviewThrows(e)
  {
    if PreviewThrows(e) || sinkDown then c
    else c.(sent := c.sent + [EventFrame(e)])
  }

  /** Whether the connect handler's log line `latest.answer.substring(...)` throws for this hub. */
  predicate ConnectPreviewThrows(h: Hub)
    ensures h.latest == None ==> !ConnectPreviewThrows(h)
    ensures h.latest.Some? && h.latest.value.Processing? ==> ConnectPreviewThrows(h)
    ensures ConnectPreviewThrows(h) ==> h.latest.Some? && !HasTextAnswer(h.latest.value)
  {
    h.latest.Some? && !HasTextAnswer(h.latest.value)
  }

  /**
   * The connect handler as written. Its log line for the cached event reads
   * `latest.answer.substring`, outside any `try`, so a cached event without a
   * string answer (a cached processing event, in particular) makes it throw
   * after the confirmation and any processing notice. Otherwise it pushes the
   * initial frames, starts the heartbeat and registers its listener with
   * `on`, whose replay relays the cached event a second time.
   */
  function Open(h: Hub, id: ListenerId, now: string): (r: Opening)
    ensures r.Crashed? <==> ConnectPreviewThrows(h)
    ensures r.Crashed? ==> r.pushed + [EventFrame(h.latest.value)] == InitialFrames(h, now)
    ensures r.Opened? ==> r.hub.listeners == h.listeners + [id]
    ensures r.Opened? ==>
      r.hub.latest == h.latest && r.hub.isProcessing == h.isProcessing && r.hub.lastMessageId == h.lastMessageId
    ensures r.Opened? ==> r.conn.open && r.conn.heartbeat
    ensures r.Opened? ==>
      r.conn.sent == InitialFrames(h, now) + (if h.latest.Some? then [EventFrame(h.latest.value)] else [])
  {
    var frames := InitialFrames(h, now);
    if ConnectPreviewThrows(h) then Crashed(frames[..|frames| - 1])
    else Register(h, id, frames)
  }

  /** What `on`'s replay pushes: the cached event, unless the listener's own preview of it throws. */
  function Replayed(h: Hub): (frames: seq<Frame>)
    ensures |frames| <= 1
    ensures forall f :: f in frames ==> f.EventFrame? && Some(f.event) == h.latest
  {
    if h.latest.Some? && !PreviewThrows(h.latest.value) then [EventFrame(h.latest.value)] else []
  }

  /**
   * Start the heartbeat, then `on(listener)`. The replay reaches a stream
   * just created, so its push is taken to succeed.
   */
  function Register(h: Hub, id: ListenerId, frames: seq<Frame>): (r: Opening)
    ensures r.Opened?
    ensures r.hub == On(h, id, {}).hub
    ensures r.conn.open && r.conn.heartbeat
    ensures r.conn.sent == frames + Replayed(h)
  {
    var sub := On(h, id, {});
    var conn := Conn(frames, true, true);
    if sub.calls == [] then Opened(sub.hub, conn)
    else
      assert sub.calls[0] in sub.calls;
      Opened(sub.hub, Relay(conn, sub.calls[0].event, false))
  }

  /**
   * The connect handler with its log line guarded as the listener's is: it
   * always opens, and the replay carries the cached event whenever the
   * listener can preview it.
   */
  function OpenIntended(h: Hub, id: ListenerId, now: string): (r: Opening)
    ensures r.Opened?
    ensures r.hub.listeners == h.listeners + [id]
    ensures r.conn.open && r.conn.heartbeat
    ensures r.conn.sent == InitialFrames(h, now) + Replayed(h)
  {
    Register(h, id, InitialFrames(h, now))
  }

  /**
   * One heartbeat tick: nothing once the timer is cleared; a failed push
   * clears the timer and nothing else (the listener stays registered and the
   * connection open); otherwise a heartbeat frame with the last message id.
   */
  function Tick(c: Conn, h: Hub, now: string, sinkDown: bool): (r: Conn)
    ensures r.open == c.open
    ensures !c.heartbeat ==> r == c
    ensures c.heartbeat && sinkDown ==> !r.heartbeat && r.sent == c.sent
    ensures c.heartbeat && !sinkDown ==> r.heartbeat && r.sent == c.sent + [Heartbeat(now, h.lastMessageId)]
  {
    if !c.heartbeat then c
    else if sinkDown then c.(heartbeat := false)
    else c.(sent := c.sent + [Heartbeat(now, h.lastMessageId)])
  }

  /** The close callback: the heartbeat is cleared and this connection's listener is removed with `off`. */
  function Close(h: Hub, c: Conn, id: ListenerId): (r: Closed)
    ensures !r.conn.heartbeat && !r.conn.open && r.conn.sent == c.sent
    ensures r.hub == Off(h, id)
  {
    Closed(Off(h, id), c.(heartbeat := false, open := false))
  }

  // Properties of the connect sequence.

  /**
   * A client that connects while a text answer is cached receives it twice in
   * a row: once from the handler's own initial push and once from `on`'s replay.
   */
  lemma CachedAnswerSentTwice(h: Hub, id: ListenerId, now: string)
    requires h.latest.Some? && HasTextAnswer(h.latest.value)
    ensures Open(h, id, now).Opened?
    ensures var sent := Open(h, id, now).conn.sent;
      |sent| >= 3 && sent[|sent| - 2] == sent[|sent| - 1] == EventFrame(h.latest.value)
      && multiset(sent)[EventFrame(h.latest.value)] == 2
  {
  }

  /** A client connecting while a processing event is cached gets an error instead of a stream. */
  lemma OpenFailsOnCachedProcessing(h: Hub, id: ListenerId, now: string, ts: Value)
    requires h.latest == Some(Processing(ts))
    ensures Open(h, id, now).Crashed?
    ensures Open(h, id, now).pushed[0] == Text(Confirmation)
    ensures forall f :: f in Open(h, id, now).pushed ==> !f.EventFrame?
  {
  }

  /** Where the handler as written does not throw, the guarded handler does exactly the same. */
  lemma OpenIntendedAgrees(h: Hub, id: ListenerId, now: string)
    requires !ConnectPreviewThrows(h)
    ensures Open(h, id, now) == OpenIntended(h, id, now)
  {
  }
}

=== FILE: webhook.dfy ===
/**
 * The ingestion handler (`POST /api/webhook`): a loosely typed body becomes
 * either one event to emit and a success reply, or a failure reply with
 * nothing emitted. The current time is a parameter.
 */
module Webhook {
  import opened Options
  import opened JsValues
  import opened EventEmitter

  /** The four fields the handler reads; any other field of the body is ignored. */
  datatype Body = Body(
    eventType: Option<Value>,
    answer: Option<Value>,
    model: Option<Value>,
    timestamp: Option<Value>)

  /**
   * What reading the body produced: `readBody` itself failed, the body is
   * `null` or `undefined` (so reading `body.type` throws), or a value whose
   * fields can be read. A primitive body has none of the four fields.
   */
  datatype Request = Unreadable | NoBody | Posted(body: Body)

  /** The reply: `{success: true, message}` or `{success: false, error}`. */
  datatype Reply = Ok(message: string) | Err(error: string)

  const ProcessingAck := "Processing status broadcasted"
  const AnswerAck := "Answer received and broadcasted"
  const MissingAnswer := "Missing required field: answer"
  const InternalError := "Internal server error"

  /** The decision taken before anything is emitted. */
  datatype Plan = Publish(event: Event, ack: string) | Reject(error: string)

  /** The outcome of one request: the hub afterwards, the listener calls made, the reply. */
  datatype Handled = Handled(hub: Hub, calls: seq<Call>, reply: Reply)

  /** `body.type || 'answer'`. */
  function EventType(b: Body): (t: Value)
    ensures b.eventType == Some(t) || t == Str("answer")
    ensures Truthy(b.eventType) ==> Some(t) == b.eventType
    ensures !Truthy(b.eventType) ==> t == Str("answer")
  {
    OrElse(b.eventType, Str("answer"))
  }

  /** `body.timestamp || new Date().toISOString()`, with the clock reading passed in as `now`. */
  function Stamp(b: Body, now: string): (stamp: Value)
    ensures b.timestamp == Some(stamp) || stamp == Str(now)
    ensures Truthy(b.timestamp) ==> Some(stamp) == b.timestamp
    ensures !Truthy(b.timestamp) ==> stamp == Str(now)
  {
    OrElse(b.timestamp, Str(now))
  }

  /**
   * The classification: a processing request publishes a processing event
   * before any answer validation; any other type (a missing or falsy one
   * included) takes the answer path, which rejects a falsy `answer` and
   * otherwise publishes an answer event. A body that cannot be read is an
   * internal error.
   */
  function Classify(req: Request, now: string): (p: Plan)
    ensures p.Reject? <==>
      !req.Posted? || (EventType(req.body) != Str("processing") && !Truthy(req.body.answer))
    ensures p.Reject? ==> p.error == (if req.Posted? then MissingAnswer else InternalError)
    ensures p.Publish? ==> req.Posted? && p.event.timestamp == Stamp(req.body, now)
    ensures p.Publish? && p.event.Processing? <==> req.Posted? && EventType(req.body) == Str("processing")
    ensures p.Publish? && p.event.Processing? ==> p.ack == ProcessingAck
    ensures p.Publish? && p.event.Answer? ==>
      && Truthy(req.body.answer)
      && Some(p.event.answer) == req.body.answer
      && p.event.model == req.body.model
      && p.ack == AnswerAck
  {
    match req
    case Unreadable => Reject(InternalError)
    case NoBody => Reject(InternalError)
    case Posted(b) =>
      if EventType(b) == Str("processing") then
        Publish(Processing(Stamp(b, now)), ProcessingAck)
      else if !Truthy(b.answer) then
        Reject(MissingAnswer)
      else
        Publish(Answer(b.answer.value, Stamp(b, now), b.model), AnswerAck)
  }

  /** The reply once the planned event has gone through `emit`: an exception from `emit` becomes the internal-error reply. */
  function Conclude(em: Emitted, ack: string): (r: Handled)
    ensures r.hub == em.hub && r.calls == em.calls
    ensures em.completion == Threw ==> r.reply == Err(InternalError)
    ensures em.completion == Returned ==> r.reply == Ok(ack)
  {
    Handled(em.hub, em.calls, if em.completion == Threw then Err(InternalError) else Ok(ack))
  }

  /**
   * The handler as written: at most one `emit`, every exception caught and
   * turned into the internal-error reply, never rethrown.
   */
  function Handle(h: Hub, req: Request, now: string, failing: set<ListenerId>): (r: Handled)
    ensures Classify(req, now).Reject? ==> r == Handled(h, [], Err(Classify(req, now).error))
    ensures Classify(req, now).Publish? ==> r.hub == h.(latest := Some(Classify(req, now).event))
    ensures forall c :: c in r.calls ==> Classify(req, now).Publish? && c.event == Classify(req, now).event
    ensures r.reply.Ok? <==> Classify(req, now).Publish? && HasTextAnswer(Classify(req, now).event)
    ensures Classify(req, now).Publish? && !HasTextAnswer(Classify(req, now).event) ==> r.reply == Err(InternalError)
    ensures r.reply.Ok? ==> r.reply.message == Classify(req, now).ack && Ids(r.calls) == h.listeners
    ensures r.reply.Err? ==> r.calls == []
  {
    match Classify(req, now)
    case Reject(error) => Handled(h, [], Err(error))
    case Publish(e, ack) => Conclude(Emit(h, e, failing), ack)
  }

  /** The handler on top of the intended `emit`, whose log line cannot throw. */
  function HandleIntended(h: Hub, req: Request, now: string, failing: set<ListenerId>): (r: Handled)
    ensures Classify(req, now).Reject? ==> r == Handled(h, [], Err(Classify(req, now).error))
    ensures Classify(req, now).Publish? ==>
      && r.hub == h.(latest := Some(Classify(req, now).event))
      && r.reply == Ok(Classify(req, now).ack)
      && Ids(r.calls) == h.listeners
    ensures forall c :: c in r.calls ==> c.event == Classify(req, now).event
  {
    match Classify(req, now)
    case Reject(error) => Handled(h, [], Err(error))
    case Publish(e, ack) => Conclude(EmitIntended(h, e, failing), ack)
  }

  // Properties of the classification and of the handler.

  /** A missing or falsy `type` behaves exactly like `type: 'answer'`. */
  lemma FalsyTypeIsAnswer(b: Body, now: string)
    requires !Truthy(b.eventType)
    ensures Classify(Posted(b), now) == Classify(Posted(b.(eventType := Some(Str("answer")))), now)
  {
  }

  /** A processing request is answered before any look at `answer`: that field makes no difference. */
  lemma ProcessingIgnoresAnswer(b: Body, answer: Option<Value>, now: string)
    requires EventType(b) == Str("processing")
    ensures Classify(Posted(b.(answer := answer)), now) == Classify(Posted(b), now)
  {
  }

  /**
   * As written, a processing request never succeeds: `emit` caches the
   * processing event, then its log line throws before any listener runs, and
   * the reply is the internal error.
   */
  lemma ProcessingRequestFails(h: Hub, b: Body, now: string, failing: set<ListenerId>)
    requires EventType(b) == Str("processing")
    ensures Handle(h, Posted(b), now, failing)
      == Handled(h.(latest := Some(Processing(Stamp(b, now)))), [], Err(InternalError))
  {
  }

  /**
   * With the intended `emit`, a processing request is broadcast to every
   * registration in order and acknowledged.
   */
  lemma ProcessingRequestIntended(h: Hub, b: Body, now: string, failing: set<ListenerId>)
    requires EventType(b) == Str("processing")
    ensures HandleIntended(h, Posted(b), now, failing).reply == Ok(ProcessingAck)
    ensures Ids(HandleIntended(h, Posted(b), now, failing).calls) == h.listeners
    ensures HandleIntended(h, Posted(b), now, failing).hub.latest == Some(Processing(Stamp(b, now)))
  {
  }

  /** A text answer is cached, delivered to every registration and acknowledged. */
  lemma TextAnswerBroadcast(h: Hub, b: Body, text: string, now: string, failing: set<ListenerId>)
    requires EventType(b) != Str("processing")
    requires b.answer == Some(Str(text)) && text != ""
    ensures Handle(h, Posted(b), now, failing).reply == Ok(AnswerAck)
    ensures Handle(h, Posted(b), now, failing).hub.latest == Some(Answer(Str(text), Stamp(b, now), b.model))
    ensures Ids(Handle(h, Posted(b), now, failing).calls) == h.listeners
  {
  }

  /**
   * A truthy answer that is not a string passes validation, is cached, and
   * then makes `emit` throw: the reply is the internal error and no listener
   * is called.
   */
  lemma NonTextAnswerFails(h: Hub, b: Body, now: string, failing: set<ListenerId>)
    requires EventType(b) != Str("processing")
    requires Truthy(b.answer) && !b.answer.value.Str?
    ensures Handle(h, Posted(b), now, failing)
      == Handled(h.(latest := Some(Answer(b.answer.value, Stamp(b, now), b.model))), [], Err(InternalError))
  {
  }
}
